=== FILE: README.md ===
# Command gateway core, modelled in Dafny

`server.cpp` is a small HTTP gateway. It runs one shell command per `POST /run`
request. The client authenticates with a bearer token taken from the
`CMD_SERVICE_TOKEN` environment variable. The command is read from the request
body, either raw or as a quoted JSON string. It is trimmed, checked against a
deny-list, and run as `bash -lc <command>` with a 20-second deadline. The
server answers with the exit code, a timeout flag and the combined
stdout/stderr output. A command the deny-list refuses gets 403, any other
failure of the command gets 400, and a request without the configured token
gets 401.

This project models the pure core of that file and proves properties of it:

| file | module | models |
|---|---|---|
| `options.dfy` | `Options` | an `Option` type |
| `text.dfy` | `Text` | `trim_copy`, `to_lower_copy`, the "C"-locale `isspace`/`tolower` |
| `json.dfy` | `Json` | `json_escape` and `decode_json_string_like` |
| `patterns.dfy` | `Patterns` | the `std::regex` deny patterns, each written as a predicate over the lower-cased command |
| `classifier.dfy` | `Classifier` | `is_blocked_command`: first match wins over the flag check, the two rm-root patterns and the eight-entry table |
| `runner.dfy` | `Runner` | `run_command`: the validation ladder, the poll loop, the drain and the exit-code rule, over a host that is passed in |
| `http.dfy` | `Http` | `parse_authorization`, `authorize`, how the `/run` handler reads the body, and the status choice of `render_result` |
| `scenarios.dfy` | `Scenarios` | concrete commands worked through the classifier and `run_command` |

Conventions:

- A `char` stands for one byte of a `std::string`. Character classes follow the
  "C" locale: only ASCII characters are spaces, letters or digits, and
  `tolower` changes only `A`..`Z`.
- The regular expressions are not fed to a regex engine. Each pattern is
  written out as a predicate with an existential over the match position.
  Two ECMAScript facts keep these short: a `\s*` or `\d*` run that is
  followed by a different kind of character can only end where the run ends,
  and `\b` is a change between word and non-word characters. The predicates
  are in `patterns.dfy`.
- The operating system is a parameter. A `Runner.Host` value says whether
  `pipe` and `fork` fail. If they succeed, it gives what the parent saw on each
  turn of its loop: the bytes `read` returned, whether `waitpid(WNOHANG)`
  reaped the child and with which status, and whether the deadline had passed.
  It then gives the reads of the final drain.
- The configured token, the `Authorization` header value and the request body
  are parameters. A missing header is the empty string, which is what
  `get_header_value` returns. An unset `CMD_SERVICE_TOKEN` is `None`.

## Model

| member | source | states |
|---|---|---|
| Text.LowerChar | server.cpp:52 | the result is never an upper-case letter; a non-upper-case character is unchanged; `A`..`Z` move to `a`..`z` by the fixed ASCII offset |
| Text.ToLower | server.cpp:50-54 | the length is kept and every position is mapped through `tolower` on its own |
| Text.ToLowerHasNoUpper | server.cpp:50-54 | the lower-cased text holds no upper-case letter |
| Text.ToLowerIdempotent | server.cpp:50-54 | lower-casing twice is the same as lower-casing once |
| Text.ToLowerOfLower | server.cpp:50-54 | a text without upper-case letters is its own lower-case form |
| Text.ToLowerAppend | server.cpp:50-54 | lower-casing distributes over concatenation |
| Text.ToLowerKeepsSpaces | server.cpp:50-54 | lower-casing keeps which positions are whitespace |
| Text.Trim | server.cpp:42-48 | the result is the contiguous slice of the input left after cutting off all leading and all trailing whitespace; it has no whitespace at its edges, is no longer than the input, and is empty exactly when the input is all whitespace |
| Text.TrimUnique | server.cpp:42-48 | that slice characterisation pins down the result: any slice meeting it equals the trim |
| Text.TrimIdempotent | server.cpp:42-48 | trimming twice is the same as trimming once |
| Text.TrimOfTrimmed | server.cpp:42-48 | a text without whitespace at its edges is its own trim |
| Text.TrimIgnoresPadding | server.cpp:42-48 | whitespace added on either side never changes the trim |
| Text.TrimCopy | server.cpp:42-48 | the two index loops (advance `start`, pull back `end` but never past `start`) compute the trim |
| Json.EscapeChar | server.cpp:30-37 | each of `"`, `\`, newline, carriage return and tab becomes a backslash pair that the decoder maps back to it; every other character passes through alone |
| Json.Escape | server.cpp:26-40 | the output is longer than the input by exactly the number of special characters, and holds no raw newline, carriage return or tab |
| Json.EscapeAppend | server.cpp:26-40 | escaping distributes over concatenation |
| Json.EscapeIsIdentityIff | server.cpp:26-40 | escaping leaves a text unchanged exactly when it holds none of the five special characters |
| Json.UnescapeChar | server.cpp:68-78 | `n`, `r`, `t`, `b`, `f` after a backslash give newline, carriage return, tab, backspace and form feed; `\`, `"`, `/` and every other character give themselves, so `\u0041` decodes to `u0041` |
| Json.Unescape | server.cpp:60-79 | the unescaped text is no longer than its input, and is exactly as long precisely when the input holds no backslash |
| Json.Decode | server.cpp:56-81 | a body that is not wrapped in quotes (or is shorter than 2) comes back unchanged; a quoted one decodes to at most its length minus 2 |
| Json.UnescapeEscape | server.cpp:60-79 | unescaping undoes escaping, for every text |
| Json.DecodeEscapeRoundTrip | server.cpp:56-81 | decoding the quoted JSON literal of any text gives that text back |
| Json.UnescapeNoBackslash | server.cpp:60-79 | a text without backslashes is its own unescape |
| Json.DecodeWithoutBackslash | server.cpp:56-81 | a quoted body without backslashes decodes to the text between the quotes |
| Json.DecodeJsonStringLike | server.cpp:56-81 | the single index loop, which consumes two characters per escape pair and stops at a backslash with nothing after it, computes the decode |
| Patterns.RmRootRf1 | server.cpp:91-92 | reads `\brm\b[^;&\|]*-[^;&\|]*r[^;&\|]*f[^;&\|]*\s+` then the root: an `rm` word, then a separator-free span that holds `-`, `r`, `f` as a subsequence and ends in a space, then `/` or `/*`, then only whitespace up to the end or a separator (the `\s*` after the slash is read as its maximal run) |
| Patterns.RmRootRf2 | server.cpp:93-94 | the same reading with the subsequence `-`, `f`, `r` |
| Patterns.AtCommandBoundary | server.cpp:101-113 | reads `(^\|[;&\|])\s*<head>`: a head at the text's start or just after a separator, past the maximal `\s*` run (every head starts with a non-space, so only that run can succeed) |
| Patterns.HeadAt | server.cpp:101-113 | picks the head of each command-boundary table rule; the `dd\b` head of server.cpp:108 is the literal `dd` followed by a word boundary |
| Patterns.PowerWordAt | server.cpp:101 | reads `(shutdown\|reboot\|halt\|poweroff)\b` as one of the four words followed by a word boundary |
| Patterns.RunlevelAt | server.cpp:103 | reads `init\s+[06]\b`: `init`, a non-empty maximal whitespace run, then `0` or `6` followed by a word boundary |
| Patterns.SystemctlPowerAt | server.cpp:104 | reads `systemctl\s+(reboot\|poweroff\|halt)\b` the same way |
| Patterns.MkfsAt | server.cpp:106 | reads `mkfs(\.[a-z0-9_+-]+)?\b`: plain `mkfs` at a word boundary, or `mkfs.` with a non-empty run of type characters that some word boundary ends |
| Patterns.FormatToolAt | server.cpp:106 | `mkfs` as above, or `fdisk`, `sfdisk`, `parted`, `wipefs` followed by a word boundary |
| Patterns.DeviceAt | server.cpp:109-111 | reads `(sd[a-z]\d*\|vd[a-z]\d*\|nvme\d+n\d+(p\d+)?)\b` with every digit run read as its maximal run, since what follows each run (`\b`, `n`, `p`) cannot sit between two digits |
| Patterns.BlockDeviceArgument | server.cpp:109 | reads `\b(of\|if)=/dev/<device>\b` anywhere in the text: a word boundary, `of=/dev/` or `if=/dev/`, then a device name |
| Patterns.NullRedirectAt | server.cpp:111 | reads `:\s*>\s*/dev/<device>\b` with both whitespace runs maximal |
| Patterns.KillAllAt | server.cpp:113 | reads `kill\s+-9\s+-?1\b`: `kill`, whitespace, `-9`, whitespace, then `1` or `-1` followed by a word boundary |
| Classifier.RuleMatches | server.cpp:117 | `std::regex_search` of each table entry's pattern over the lower-cased text, one reading per entry |
| Classifier.FirstMatch | server.cpp:116-122 | the table loop allows exactly when no rule matches; when it blocks, the reason is that of a rule that matches with no earlier rule matching |
| Classifier.FirstMatchIsEarliest | server.cpp:116-121 | whichever rule is the first to match decides the reason |
| Classifier.Classify | server.cpp:83-123 | a blocked verdict always carries one of the ten fixed reasons |
| Classifier.ClassifyIgnoresCase | server.cpp:84 | a command gets the same verdict and reason as its lower-cased form |
| Classifier.ClassifySameUpToCase | server.cpp:84 | two commands that differ only in letter case get the same verdict |
| Classifier.NoPreserveRootAlwaysBlocked | server.cpp:86-89 | a command containing `--no-preserve-root` in any letter case is blocked as "dangerous rm flag", whatever else it matches |
| Classifier.RootDeletionBeatsTable | server.cpp:91-98 | without that flag, a match of either rm-root pattern gives "root filesystem deletion", whatever table rules also match |
| Classifier.TableOrderDecides | server.cpp:100-121 | otherwise the earliest matching table entry gives the reason |
| Classifier.AllowedIffNoRuleMatches | server.cpp:83-123 | a command is allowed exactly when neither the flag, nor an rm-root pattern, nor any table entry matches its lower-cased text |
| Classifier.ReasonsAreDistinct | server.cpp:86-114 | the ten reasons are pairwise different, so a reason names one rule |
| Runner.PollLoop | server.cpp:168-182 | the loop's output always begins with what was gathered before it |
| Runner.PollLoopStopsAtFirst | server.cpp:168-182 | the loop leaves on the first turn that reaps the child or sees the deadline passed; its output is every chunk up to and including that turn, in order; it counts as killed exactly when that turn did not reap, because the exit check comes before the clock check |
| Runner.PollLoopRunningIff | server.cpp:168-182 | the loop is still running after a sequence of turns exactly when none of them reaped the child or saw the deadline |
| Runner.PollLoopIgnoresLaterPolls | server.cpp:168-182 | turns after the one the loop left on never change its result |
| Runner.Drain | server.cpp:184-188 | the drained output is always a prefix of everything the reads returned, in order |
| Runner.DrainStopsAtFirstEmpty | server.cpp:184-188 | the drain leaves at the first read that returns nothing and keeps every read before it, in order, and nothing after it |
| Runner.ExitCode | server.cpp:191 | -2 exactly when the child was killed at the deadline; otherwise the exit status for a normal exit, and -1 (`AbnormalEndCode`, the same value as `NotExecutedCode`) for any other end; always within -2..255 |
| Runner.Validate | server.cpp:126-133 | a trimmed command passes the checks exactly when it is non-empty, at most 4096 characters and allowed by the classifier; a failing check gives `ok=false`, exit code -1, no timeout, no output and a non-empty error |
| Runner.RunCommand | server.cpp:125-193 | every failure has exit code -1, no timeout and no output; the timeout flag holds exactly when the exit code is -2; `ok` holds exactly when the error is empty, and exactly when the checks pass and the child is spawned |
| Runner.ValidationLadder | server.cpp:126-133 | on the trimmed command: empty gives "empty command", longer than 4096 gives the too-long error, a blocked verdict gives "blocked command: " plus its reason, in that order; the host is never consulted for a command that fails a check |
| Runner.RunCommandSeesTrimmed | server.cpp:126-131 | padding the command with whitespace changes nothing |
| Runner.RunCommandCompletes | server.cpp:160-192 | an approved, spawned command reports success with the loop's chunks followed by the drain's reads up to the first empty one; it timed out exactly when the last turn did not reap, and its exit code is then -2, else the child's exit status or -1 |
| Http.ParseAuthorization | server.cpp:209-216 | the token has no whitespace at its edges and is no longer than the header value |
| Http.ParseAuthorizationCases | server.cpp:209-216 | a blank value gives the empty token; a trimmed value that starts with `bearer ` in any letter case gives the trimmed rest; any other value comes back trimmed |
| Http.ParseSeesTrim | server.cpp:210 | two header values with the same trim parse to the same token |
| Http.BearerTokenRecovered | server.cpp:209-216 | `Bearer <token>` with the word in any letter case and whitespace around it gives back exactly the token |
| Http.Authorize | server.cpp:218-229 | a request is never admitted while the token is unset |
| Http.AdmittedHeaderCarriesToken | server.cpp:209-228 | only a header carrying the configured token is admitted: once trimmed it is the token itself, or `bearer ` in some letter case, then spaces, then the token |
| Http.BearerHeaderAdmitted | server.cpp:209-228 | a request carrying `Bearer <token>` for the configured token, in any letter case and with whitespace around it, is admitted |
| Http.UnmatchableToken | server.cpp:218-229 | a configured token with whitespace at its edges admits no request at all |
| Http.EmptyTokenAdmitsAnonymous | server.cpp:219-221 | an empty configured token admits a request with a blank or missing header |
| Http.AuthorizeStrict | server.cpp:219-221 | a request is admitted only with a non-empty configured token and a non-blank header |
| Http.AuthorizeStrictAgrees | server.cpp:219-221 | the corrected check agrees with the written one for every token except the empty one, which admits nothing |
| Http.CommandFromBody | server.cpp:248-255 | the command taken from a body is never empty and has no whitespace at its edges; `None` stands for the 400 "missing command" answer |
| Http.CommandFromQuotedBody | server.cpp:248-255 | a command sent as a JSON string literal, padded with whitespace, is recovered exactly (when it has no whitespace at its own edges) |
| Http.CommandFromRawBody | server.cpp:248-255 | a body that is not a quoted string is taken as the command itself, trimmed |
| Http.ResponseStatus | server.cpp:231-236 | the status is one of 200, 400 and 403 |
| Http.ForbiddenIffBlocked | server.cpp:231-236 | end to end, 403 is answered exactly when the trimmed command is non-empty, within 4096 characters and blocked by the classifier |
| Http.OkIffSpawned | server.cpp:231-236 | end to end, 200 is answered exactly when the checks pass and the child is spawned |
| Scenarios.RmRfRootIsRootDeletion | server.cpp:91-98 | `rm -rf /` is classified as a root deletion |
| Scenarios.UpperCaseRmRfRootIsRootDeletion | server.cpp:84-98 | `RM -RF /` is classified as a root deletion too |
| Scenarios.RmRfRootForbidden | server.cpp:126-133 | the request `rm -rf /` fails with "blocked command: root filesystem deletion" on every host and is answered with 403 |
| Scenarios.NoPreserveRootCommandDeletesRoot | server.cpp:91-92 | `rm -rf --no-preserve-root /` matches the first rm-root pattern |
| Scenarios.NoPreserveRootBeatsRootDeletion | server.cpp:86-98 | `rm -rf --no-preserve-root /` matches the first rm-root pattern, yet is blocked as "dangerous rm flag", not as a root deletion |
| Scenarios.PowerWordInsideArgumentAllowed | server.cpp:100-122 | `cat shutdown.log` is allowed: a power word only counts at the start of a command |
| Scenarios.TableOrderPicksDiskCopy | server.cpp:108-110 | `dd if=/dev/sda` matches both the raw-disk-copy entry and the block-device entry after it, and gets the earlier one's reason |

## Left out

- The system calls of `run_command` are not modelled: `pipe`, `fcntl`, `fork`, `dup2`, `execv`, `read`, `kill`, `waitpid`, `usleep` and the steady clock (server.cpp:135-189). What they would report is the `Runner.Host` parameter. `Runner.RunCommand` requires that the observed turns reach one on which the loop leaves, and that the drain's reads reach one that returns nothing. A real run always reaches the first because the clock is monotonic. The drain has no deadline: its non-blocking reads stop at the first one that finds nothing, so only a leftover writer that never lets the pipe run dry would keep it going, and that run is outside the model.
- The `timeout_sec` parameter is not modelled; the deadline appears only as the per-turn "past the deadline" observation.
- The 4096-byte read buffer does not bound a chunk: a chunk is whatever one `read` returned.
- A `waitpid` that fails on a poll turn is treated like "not yet reaped", which is what the loop does with it.
- `main` is not modelled: the httplib routing, the `/health` and `/tasks` responses, and `listen`. This is framework glue.
- The `getenv` lookup and the header retrieval in `authorize` are not modelled; both values are parameters.
- The 401 and 400 response bodies are not modelled. Nor is the JSON success body (`json_escape` of the output, `std::to_string` of the exit code); only its status code is.
- Concurrency between simultaneous requests is not modelled.
- Bytes outside ASCII are treated as plain characters with no class, as the "C" locale does.
- The regex engine itself is not modelled. Each pattern is written out by hand as a predicate. Only the concrete scenarios in `scenarios.dfy` connect these predicates to particular strings.
- Http.ResponseStatus: states only the range of statuses; which failure gets which status is stated end to end by `Http.ForbiddenIffBlocked` and `Http.OkIffSpawned`.

## Findings

| source | as written | input that shows it | evidently intended | confidence | as-written member | corrected member |
|---|---|---|---|---|---|---|
| server.cpp:219-221 | a set but empty `CMD_SERVICE_TOKEN` is compared with the parsed header, and a blank or missing header parses to the empty string, so the request is admitted | `CMD_SERVICE_TOKEN=""` and a `POST /run` with no `Authorization` header | an empty token should be refused like an unset one; the 401 message asks for a bearer token | medium, not executed | Http.EmptyTokenAdmitsAnonymous | Http.AuthorizeStrict |

=== FILE: classifier.dfy ===
/** The deny-list classifier `is_blocked_command`: first match wins, in a fixed
    priority order, over the lower-cased command text. The C++ function returns
    `true` and writes the reason into an out-parameter; here the verdict carries
    the reason, and `Allowed` stands for `false` with the reason left untouched. */
module Classifier {
  import opened Text
  import opened Patterns

  datatype Verdict = Allowed | Blocked(reason: string)

  /** The entries of `kBlockedPatterns`, one constructor per table row. */
  datatype Rule =
    | PowerControl
    | RunlevelSwitch
    | SystemPowerControl
    | DiskFormatting
    | RawDiskCopy
    | BlockDeviceAccess
    | BlockDeviceOverwrite
    | KillAll

  /** The table in the order the loop visits it. */
  const Table: seq<Rule> := [
    PowerControl, RunlevelSwitch, SystemPowerControl, DiskFormatting,
    RawDiskCopy, BlockDeviceAccess, BlockDeviceOverwrite, KillAll
  ]

  const NoPreserveRootFlag: string := "--no-preserve-root"
  const DangerousFlagReason: string := "dangerous rm flag"
  const RootDeletionReason: string := "root filesystem deletion"

  function Reason(rule: Rule): string {
    match rule
    case PowerControl => "power control command"
    case RunlevelSwitch => "runlevel switch command"
    case SystemPowerControl => "system power control command"
    case DiskFormatting => "disk formatting/partition command"
    case RawDiskCopy => "raw disk copy command"
    case BlockDeviceAccess => "block-device access argument"
    case BlockDeviceOverwrite => "block-device overwrite"
    case KillAll => "kill-all command"
  }

  /** `std::regex_search(lower, rule's pattern)`. */
  predicate RuleMatches(rule: Rule, lower: string) {
    match rule
    case PowerControl => AtCommandBoundary(PowerWord, lower)
    case RunlevelSwitch => AtCommandBoundary(Runlevel, lower)
    case SystemPowerControl => AtCommandBoundary(SystemctlPower, lower)
    case DiskFormatting => AtCommandBoundary(FormatTool, lower)
    case RawDiskCopy => AtCommandBoundary(DiskCopy, lower)
    case BlockDeviceAccess => BlockDeviceArgument(lower)
    case BlockDeviceOverwrite => AtCommandBoundary(NullRedirect, lower)
    case KillAll => AtCommandBoundary(KillAllHead, lower)
  }

  /** Rule `k` is the first rule of `rules` that matches. */
  ghost predicate FirstMatchAt(rules: seq<Rule>, lower: string, k: int) {
    && 0 <= k < |rules|
    && RuleMatches(rules[k], lower)
    && forall j :: 0 <= j < k ==> !RuleMatches(rules[j], lower)
  }

  /** The loop over the table: the reason of the earliest matching rule, or
      `Allowed` when none matches. */
  function FirstMatch(rules: seq<Rule>, lower: string): (v: Verdict)
    ensures v == Allowed <==> forall k :: 0 <= k < |rules| ==> !RuleMatches(rules[k], lower)
    ensures v.Blocked? ==> exists k :: FirstMatchAt(rules, lower, k) && v.reason == Reason(rules[k])
  {
    if rules == [] then Allowed
    else if RuleMatches(rules[0], lower) then
      assert FirstMatchAt(rules, lower, 0);
      Blocked(Reason(rules[0]))
    else
      var v := FirstMatch(rules[1..], lower);
      assert forall k :: 1 <= k < |rules| ==> rules[k] == rules[1..][k - 1];
      assert v.Blocked? ==> exists k :: FirstMatchAt(rules, lower, k) && v.reason == Reason(rules[k]) by {
        if v.Blocked? {
          var k :| FirstMatchAt(rules[1..], lower, k) && v.reason == Reason(rules[1..][k]);
          assert FirstMatchAt(rules, lower, k + 1);
        }
      }
      v
  }

  /** Whichever rule is the first to match decides the reason. */
  lemma {:induction false} FirstMatchIsEarliest(rules: seq<Rule>, lower: string, k: int)
    requires FirstMatchAt(rules, lower, k)
    ensures FirstMatch(rules, lower) == Blocked(Reason(rules[k]))
  {
    if k > 0 {
      assert rules[1..][k - 1] == rules[k];
      assert forall j :: 0 <= j < k - 1 ==> rules[1..][j] == rules[j + 1];
      FirstMatchIsEarliest(rules[1..], lower, k - 1);
    }
  }

  /** `is_blocked_command`. */
  function Classify(command: string): (v: Verdict)
    ensures v.Blocked? ==> v.reason in KnownReasons()
  {
    var lower := ToLower(command);
    if Contains(lower, NoPreserveRootFlag) then Blocked(DangerousFlagReason)
    else if RmRootRf1(lower) || RmRootRf2(lower) then Blocked(RootDeletionReason)
    else
      var v := FirstMatch(Table, lower);
      assert v.Blocked? ==> exists k :: 0 <= k < |Table| && v.reason == Reason(Table[k]);
      v
  }

  /** Every reason the classifier can give. */
  function KnownReasons(): set<string> {
    {DangerousFlagReason, RootDeletionReason} + set k | 0 <= k < |Table| :: Reason(Table[k])
  }

  /** Only the lower-cased text is inspected, so any mix of letter cases gets
      the verdict, and the reason, of its lower-case form. */
  lemma ClassifyIgnoresCase(command: string)
    ensures Classify(command) == Classify(ToLower(command))
  {
    ToLowerIdempotent(command);
  }

  /** Two commands that differ only in letter case get the same verdict. */
  lemma ClassifySameUpToCase(a: string, b: string)
    requires ToLower(a) == ToLower(b)
    ensures Classify(a) == Classify(b)
  {
  }

  /** The `--no-preserve-root` flag is checked first and wins over every other rule. */
  lemma NoPreserveRootAlwaysBlocked(command: string)
    requires Contains(ToLower(command), NoPreserveRootFlag)
    ensures Classify(command) == Blocked(DangerousFlagReason)
  {
  }

  /** Without that flag, a root deletion beats every table rule. */
  lemma RootDeletionBeatsTable(command: string)
    requires !Contains(ToLower(command), NoPreserveRootFlag)
    requires RmRootRf1(ToLower(command)) || RmRootRf2(ToLower(command))
    ensures Classify(command) == Blocked(RootDeletionReason)
  {
  }

  /** Otherwise the earliest matching table rule gives the reason. */
  lemma TableOrderDecides(command: string, k: int)
    requires !Contains(ToLower(command), NoPreserveRootFlag)
    requires !RmRootRf1(ToLower(command)) && !RmRootRf2(ToLower(command))
    requires FirstMatchAt(Table, ToLower(command), k)
    ensures Classify(command) == Blocked(Reason(Table[k]))
  {
    FirstMatchIsEarliest(Table, ToLower(command), k);
  }

  /** Default allow: a command is allowed exactly when no rule matches it. */
  lemma AllowedIffNoRuleMatches(command: string)
    ensures Classify(command) == Allowed <==>
      && !Contains(ToLower(command), NoPreserveRootFlag)
      && !RmRootRf1(ToLower(command)) && !RmRootRf2(ToLower(command))
      && forall k :: 0 <= k < |Table| ==> !RuleMatches(Table[k], ToLower(command))
  {
  }

  /** The reasons tell the rules apart, so a blocked verdict names exactly one rule. */
  lemma ReasonsAreDistinct()
    ensures forall j, k :: 0 <= j < k < |Table| ==> Reason(Table[j]) != Reason(Table[k])
    ensures forall k :: 0 <= k < |Table| ==> Reason(Table[k]) != DangerousFlagReason && Reason(Table[k]) != RootDeletionReason
  {
  }
}

=== FILE: http.dfy ===
/** The pure pieces of the HTTP handlers: reading the bearer token out of the
    `Authorization` header (`parse_authorization`), comparing it with the
    configured token (`authorize`), turning a `/run` request body into a
    command, and choosing the status code of a failed run (`render_result`).

    The header value, the body and the configured token are parameters; how
    the framework fetches them, and the environment lookup of the token, are
    not modelled. */
module Http {
  import opened Options
  import opened Text
  import opened Json
  import opened Classifier
  import opened Runner

  const BearerPrefix: string := "bearer "

  /** `parse_authorization`. */
  function ParseAuthorization(value: string): (token: string)
    ensures NoEdgeSpace(token)
    ensures |token| <= |value|
  {
    var auth := Trim(value);
    if auth == [] then []
    else if StartsWith(ToLower(auth), BearerPrefix) then Trim(auth[|BearerPrefix|..])
    else auth
  }

  /** The three outcomes of `parse_authorization`: a blank header gives the
      empty token; a header whose trimmed text starts with `bearer ` in any
      letter case gives the trimmed rest; anything else is kept, trimmed. */
  lemma ParseAuthorizationCases(value: string)
    ensures AllSpace(value) ==> ParseAuthorization(value) == []
    ensures !AllSpace(value) && StartsWith(ToLower(Trim(value)), BearerPrefix) ==>
      ParseAuthorization(value) == Trim(Trim(value)[|BearerPrefix|..])
    ensures !StartsWith(ToLower(Trim(value)), BearerPrefix) ==> ParseAuthorization(value) == Trim(value)
  {
  }

  /** A client that sends `Bearer <token>`, with the word in any letter case,
      spaces anywhere around it and a token with no spaces at its edges, gets
      exactly its token back. */
  lemma BearerTokenRecovered(prefix: string, token: string, pre: string, post: string)
    requires ToLower(prefix) == BearerPrefix
    requires token != [] && NoEdgeSpace(token)
    requires AllSpace(pre) && AllSpace(post)
    ensures ParseAuthorization(pre + prefix + token + post) == token
  {
    var v := prefix + token;
    assert pre + prefix + token + post == pre + v + post;
    TrimIgnoresPadding(pre, v, post);
    ParseSeesTrim(pre + v + post, v);
    PrefixedTokenParses(prefix, token);
  }

  /** The header value is only ever looked at through its trim. */
  lemma ParseSeesTrim(a: string, b: string)
    requires Trim(a) == Trim(b)
    ensures ParseAuthorization(a) == ParseAuthorization(b)
  {
  }

  lemma PrefixedTokenParses(prefix: string, token: string)
    requires ToLower(prefix) == BearerPrefix
    requires token != [] && NoEdgeSpace(token)
    ensures ParseAuthorization(prefix + token) == token
  {
    var v := prefix + token;
    PrefixedTokenIsTrimmed(prefix, token);
    TrimOfTrimmed(v);
    ToLowerAppend(prefix, token);
    assert StartsWith(ToLower(v), BearerPrefix);
    assert v[|BearerPrefix|..] == token;
    TrimOfTrimmed(token);
  }

  lemma PrefixedTokenIsTrimmed(prefix: string, token: string)
    requires ToLower(prefix) == BearerPrefix
    requires token != [] && NoEdgeSpace(token)
    ensures NoEdgeSpace(prefix + token)
  {
    var v := prefix + token;
    assert |prefix| == |BearerPrefix|;
    assert LowerChar(prefix[0]) == 'b';
    assert v[0] == prefix[0];
    assert v[|v| - 1] == token[|token| - 1];
  }

  /** `authorize`: the configured token must be set, and the header must carry it. */
  function Authorize(header: string, configured: Option<string>): (granted: bool)
    ensures granted ==> configured.Some?
  {
    configured.Some? && ParseAuthorization(header) == configured.value
  }

  /** A client that sends `Bearer <token>` for the configured token, in any
      letter case and with any spaces around it, is admitted. */
  lemma BearerHeaderAdmitted(prefix: string, token: string, pre: string, post: string)
    requires ToLower(prefix) == BearerPrefix
    requires token != [] && NoEdgeSpace(token)
    requires AllSpace(pre) && AllSpace(post)
    ensures Authorize(pre + prefix + token + post, Some(token))
  {
    BearerTokenRecovered(prefix, token, pre, post);
  }

  /** Conversely, only a header that carries the configured token is
      admitted: once trimmed, it is the token itself, or `bearer ` in some
      letter case, then spaces, then the token. */
  lemma AdmittedHeaderCarriesToken(header: string, token: string)
    requires token != [] && Authorize(header, Some(token))
    ensures var t := Trim(header);
      || t == token
      || (&& |BearerPrefix| <= |t| - |token|
          && ToLower(t[..|BearerPrefix|]) == BearerPrefix
          && AllSpace(t[|BearerPrefix|..|t| - |token|])
          && t[|t| - |token|..] == token)
  {
    var t := Trim(header);
    ParseAuthorizationCases(header);
    if t != [] && StartsWith(ToLower(t), BearerPrefix) {
      BearerSplit(t, token);
    }
  }

  /** A trimmed `bearer ` header whose rest trims to `token` is the prefix,
      some spaces and the token. */
  lemma BearerSplit(t: string, token: string)
    requires t != [] && NoEdgeSpace(t) && StartsWith(ToLower(t), BearerPrefix)
    requires token != [] && token == Trim(t[|BearerPrefix|..])
    ensures |BearerPrefix| <= |t| - |token|
    ensures ToLower(t[..|BearerPrefix|]) == BearerPrefix
    ensures AllSpace(t[|BearerPrefix|..|t| - |token|])
    ensures t[|t| - |token|..] == token
  {
    var n := |BearerPrefix|;
    assert t[n..] != [];
    SpacesThenTrimmedTail(t, n, token);
    ToLowerPrefix(t, n);
  }

  /** When `t` ends in a non-space, the part after position `n` is spaces
      followed by its own trimmed form. */
  lemma SpacesThenTrimmedTail(t: string, n: nat, token: string)
    requires n < |t| && !IsSpace(t[|t| - 1]) && token == Trim(t[n..])
    ensures n + |token| <= |t|
    ensures AllSpace(t[n..|t| - |token|]) && t[|t| - |token|..] == token
  {
    var u := t[n..];
    assert u[|u| - 1] == t[|t| - 1];
    TrimOfTrailingContent(u);
    SliceOfSuffix(t, n, |token|);
  }

  /** Slices of a suffix `t[n..]`, restated as slices of `t`. */
  lemma SliceOfSuffix(t: string, n: nat, m: nat)
    requires n + m <= |t|
    ensures t[n..|t| - m] == t[n..][..|t| - n - m]
    ensures t[|t| - m..] == t[n..][|t| - n - m..]
  {
  }

  /** A text that ends in a non-space loses only leading spaces to trimming. */
  lemma TrimOfTrailingContent(s: string)
    requires s != [] && !IsSpace(s[|s| - 1])
    ensures |Trim(s)| <= |s|
    ensures AllSpace(s[..|s| - |Trim(s)|]) && s[|s| - |Trim(s)|..] == Trim(s)
  {
    var r := Trim(s);
    var a, b :| TrimBounds(s, a, b) && r == s[a..b];
    assert b == |s|;
  }

  /** A configured token with spaces at its edges can never be presented, so
      no header is accepted for it. */
  lemma UnmatchableToken(header: string, configured: string)
    requires configured != [] && !NoEdgeSpace(configured)
    ensures !Authorize(header, Some(configured))
  {
  }

  /** As written, a configured token that is the empty string admits a request
      whose `Authorization` header is blank or missing. */
  lemma EmptyTokenAdmitsAnonymous(header: string)
    requires AllSpace(header)
    ensures Authorize(header, Some([]))
  {
  }

  /** `authorize` as its 401 message (server.cpp:224), which asks for a bearer
      token, evidently intends: an empty configured token is treated like an
      unset one. */
  function AuthorizeStrict(header: string, configured: Option<string>): (granted: bool)
    ensures granted ==> configured.Some? && configured.value != [] && !AllSpace(header)
  {
    configured.Some? && configured.value != [] && ParseAuthorization(header) == configured.value
  }

  /** The strict check differs from the written one only for the empty token. */
  lemma AuthorizeStrictAgrees(header: string, configured: Option<string>)
    ensures configured != Some([]) ==> AuthorizeStrict(header, configured) == Authorize(header, configured)
    ensures !AuthorizeStrict(header, Some([]))
  {
  }

  /** The `/run` handler's reading of the body: trim it, decode it if it is a
      quoted JSON string, trim again; `None` when nothing is left, which the
      handler answers with 400 and "missing command". */
  function CommandFromBody(body: string): (command: Option<string>)
    ensures command.Some? ==> command.value != [] && NoEdgeSpace(command.value)
  {
    var c := Trim(Decode(Trim(body)));
    if c == [] then None else Some(c)
  }

  /** A client that sends a command as a JSON string literal, possibly padded
      with spaces, gets that command back, as long as it has no spaces at its
      own edges (those the handler trims off). */
  lemma CommandFromQuotedBody(command: string, pre: string, post: string)
    requires command != [] && NoEdgeSpace(command)
    requires AllSpace(pre) && AllSpace(post)
    ensures CommandFromBody(pre + "\"" + Escape(command) + "\"" + post) == Some(command)
  {
    var q := "\"" + Escape(command) + "\"";
    assert pre + "\"" + Escape(command) + "\"" + post == pre + q + post;
    TrimIgnoresPadding(pre, q, post);
    assert q[0] == '"' && q[|q| - 1] == '"';
    TrimOfTrimmed(q);
    DecodeEscapeRoundTrip(command);
    TrimOfTrimmed(command);
  }

  /** A body that is not a quoted string is taken as the command itself, trimmed. */
  lemma CommandFromRawBody(body: string)
    requires !IsQuoted(Trim(body)) && !AllSpace(body)
    ensures CommandFromBody(body) == Some(Trim(body))
  {
    TrimIdempotent(body);
  }

  const BlockedStatusPrefix: string := "blocked command:"

  /** The status `render_result` answers with: 200 for a result that ran,
      403 for a failure whose error starts with "blocked command:", 400 for
      every other failure. */
  function ResponseStatus(r: ExecResult): (status: int)
    ensures status in {200, 400, 403}
  {
    if r.ok then 200
    else if StartsWith(r.error, BlockedStatusPrefix) then 403
    else 400
  }

  /** End to end, 403 means exactly that the classifier refused the command:
      no other failure of `run_command` produces an error with the blocked
      prefix. */
  lemma ForbiddenIffBlocked(command: string, host: Host)
    requires HostEnds(host)
    ensures var t := Trim(command);
      ResponseStatus(RunCommand(command, host)) == 403 <==>
        t != [] && |t| <= MaxCommandLength && Classify(t).Blocked?
  {
    var t := Trim(command);
    var r := RunCommand(command, host);
    ValidationLadder(command, host);
    OtherErrorsLackBlockedPrefix();
    if t == [] || |t| > MaxCommandLength {
    } else if Classify(t).Blocked? {
      BlockedErrorHasPrefix(Classify(t).reason);
    } else {
      assert Validate(t).None?;
      match host
      case PipeFails => assert r == Failure(PipeFailedError);
      case ForkFails => assert r == Failure(ForkFailedError);
      case Child(_, _) => assert r.ok;
    }
  }

  lemma BlockedErrorHasPrefix(reason: string)
    ensures StartsWith(BlockedPrefix + reason, BlockedStatusPrefix)
  {
    assert (BlockedPrefix + reason)[..|BlockedStatusPrefix|] == BlockedPrefix[..|BlockedStatusPrefix|];
  }

  lemma OtherErrorsLackBlockedPrefix()
    ensures !StartsWith(EmptyCommandError, BlockedStatusPrefix)
    ensures !StartsWith(TooLongError, BlockedStatusPrefix)
    ensures !StartsWith(PipeFailedError, BlockedStatusPrefix)
    ensures !StartsWith(ForkFailedError, BlockedStatusPrefix)
  {
    assert EmptyCommandError[0] != BlockedStatusPrefix[0];
    assert TooLongError[0] != BlockedStatusPrefix[0];
    assert PipeFailedError[0] != BlockedStatusPrefix[0];
    assert ForkFailedError[0] != BlockedStatusPrefix[0];
  }

  /** 200 means the command was spawned and its result is reported, whatever
      its exit code or timeout. */
  lemma OkIffSpawned(command: string, host: Host)
    requires HostEnds(host)
    ensures ResponseStatus(RunCommand(command, host)) == 200 <==> Validate(Trim(command)).None? && host.Child?
  {
  }
}

=== FILE: json.dfy ===
/** The server's hand-written JSON string codec: `json_escape`, which makes a
    string safe to put between the quotes of a JSON string literal, and
    `decode_json_string_like`, which unquotes and unescapes a request body
    that arrives as a quoted JSON string and leaves every other body alone. */
module Json {

  /** The five characters `json_escape` rewrites. */
  predicate NeedsEscape(c: char) {
    c == '"' || c == '\\' || c == '\n' || c == '\r' || c == '\t'
  }

  /** The replacement for one character: an escape pair for the five special
      ones, the character itself for everything else. */
  function EscapeChar(c: char): (e: string)
    ensures NeedsEscape(c) ==> |e| == 2 && e[0] == '\\' && e[1] in "\"\\nrt" && UnescapeChar(e[1]) == c
    ensures !NeedsEscape(c) ==> e == [c]
  {
    match c
    case '"' => "\\\""
    case '\\' => "\\\\"
    case '\n' => "\\n"
    case '\r' => "\\r"
    case '\t' => "\\t"
    case _ => [c]
  }

  /** Number of characters of `s` that `json_escape` rewrites. */
  function SpecialCount(s: string): nat {
    if s == [] then 0 else (if NeedsEscape(s[0]) then 1 else 0) + SpecialCount(s[1..])
  }

  /** `json_escape`. The output grows by exactly one character per special
      character, and never holds a raw newline, carriage return or tab. */
  function Escape(s: string): (r: string)
    ensures |r| == |s| + SpecialCount(s)
    ensures forall i :: 0 <= i < |r| ==> r[i] != '\n' && r[i] != '\r' && r[i] != '\t'
  {
    if s == [] then [] else EscapeChar(s[0]) + Escape(s[1..])
  }

  lemma {:induction false} EscapeAppend(a: string, b: string)
    ensures Escape(a + b) == Escape(a) + Escape(b)
    decreases |a|
  {
    if a != [] {
      assert (a + b)[0] == a[0] && (a + b)[1..] == a[1..] + b;
      calc {
        Escape(a + b);
        EscapeChar(a[0]) + Escape(a[1..] + b);
        { EscapeAppend(a[1..], b); }
        EscapeChar(a[0]) + (Escape(a[1..]) + Escape(b));
        (EscapeChar(a[0]) + Escape(a[1..])) + Escape(b);
      }
    } else {
      assert a + b == b;
    }
  }

  /** A string is left unchanged by escaping exactly when it holds none of the
      five special characters. */
  lemma {:induction false} EscapeIsIdentityIff(s: string)
    ensures Escape(s) == s <==> forall i :: 0 <= i < |s| ==> !NeedsEscape(s[i])
  {
    if s != [] {
      EscapeIsIdentityIff(s[1..]);
      assert forall i :: 1 <= i < |s| ==> s[i] == s[1..][i - 1];
      if Escape(s) == s {
        assert SpecialCount(s) == 0;
        assert !NeedsEscape(s[0]);
        assert Escape(s[1..]) == s[1..] by {
          assert Escape(s) == [s[0]] + Escape(s[1..]);
          assert Escape(s)[1..] == Escape(s[1..]);
        }
      }
    }
  }

  /** The character the decoder produces for the escape pair `\n`: the
      JSON escapes it knows, and the character itself for any other, so
      `\u0041` decodes to `u0041`. */
  function UnescapeChar(n: char): (c: char)
    ensures n == 'n' ==> c == '\n'
    ensures n == 'r' ==> c == '\r'
    ensures n == 't' ==> c == '\t'
    ensures n == 'b' ==> c == '\U{8}'
    ensures n == 'f' ==> c == '\U{C}'
    ensures n == '\\' || n == '"' || n == '/' ==> c == n
    ensures n !in "nrtbf" ==> c == n
  {
    match n
    case 'n' => '\n'
    case 'r' => '\r'
    case 't' => '\t'
    case 'b' => '\U{8}'
    case 'f' => '\U{C}'
    case '\\' => '\\'
    case '"' => '"'
    case '/' => '/'
    case _ => n
  }

  /** The decoder's loop over the characters between the quotes: a backslash
      and the character after it become one character; a backslash that is the
      very last character is dropped. */
  function Unescape(b: string): (r: string)
    ensures |r| <= |b|
    ensures |r| == |b| <==> forall i :: 0 <= i < |b| ==> b[i] != '\\'
  {
    if b == [] then []
    else if b[0] != '\\' then
      var r := [b[0]] + Unescape(b[1..]);
      assert forall i :: 1 <= i < |b| ==> b[i] == b[1..][i - 1];
      r
    else if |b| == 1 then []
    else [UnescapeChar(b[1])] + Unescape(b[2..])
  }

  /** The body is wrapped in double quotes (and is at least two characters). */
  predicate IsQuoted(s: string) {
    |s| >= 2 && s[0] == '"' && s[|s| - 1] == '"'
  }

  /** `decode_json_string_like`. */
  function Decode(s: string): (r: string)
    ensures !IsQuoted(s) ==> r == s
    ensures IsQuoted(s) ==> |r| <= |s| - 2
  {
    if !IsQuoted(s) then s else Unescape(s[1..|s| - 1])
  }

  /** Every escape pair `json_escape` emits is one the decoder undoes, and it
      never leaves a lone backslash at the end. */
  lemma {:induction false} UnescapeEscape(s: string)
    ensures Unescape(Escape(s)) == s
  {
    if s != [] {
      var e := EscapeChar(s[0]);
      UnescapeEscape(s[1..]);
      assert Escape(s) == e + Escape(s[1..]);
      if NeedsEscape(s[0]) {
        assert (e + Escape(s[1..]))[2..] == Escape(s[1..]);
      } else {
        assert (e + Escape(s[1..]))[1..] == Escape(s[1..]);
      }
    }
  }

  /** Round trip: the JSON literal of a string decodes back to that string. */
  lemma DecodeEscapeRoundTrip(s: string)
    ensures Decode("\"" + Escape(s) + "\"") == s
  {
    var q := "\"" + Escape(s) + "\"";
    assert IsQuoted(q);
    assert q[1..|q| - 1] == Escape(s);
    UnescapeEscape(s);
  }

  /** Decoding a quoted body that holds no backslash just strips the quotes. */
  lemma DecodeWithoutBackslash(s: string)
    requires IsQuoted(s)
    requires forall i :: 0 <= i < |s| ==> s[i] != '\\'
    ensures Decode(s) == s[1..|s| - 1]
  {
    var b := s[1..|s| - 1];
    assert forall i :: 0 <= i < |b| ==> b[i] == s[i + 1];
    UnescapeNoBackslash(b);
  }

  lemma {:induction false} UnescapeNoBackslash(b: string)
    requires forall i :: 0 <= i < |b| ==> b[i] != '\\'
    ensures Unescape(b) == b
  {
    if b != [] {
      assert forall i :: 0 <= i < |b[1..]| ==> b[1..][i] == b[i + 1];
      UnescapeNoBackslash(b[1..]);
    }
  }

  /** `decode_json_string_like` as the source writes it: one pass from index 1
      to the index before the closing quote, consuming two characters for each
      escape pair and stopping at a backslash that has nothing after it. */
  method DecodeJsonStringLike(s: string) returns (out: string)
    ensures out == Decode(s)
  {
    if |s| < 2 || s[0] != '"' || s[|s| - 1] != '"' {
      return s;
    }
    var e := |s| - 1;
    out := [];
    var i := 1;
    while i + 1 < |s|
      invariant 1 <= i <= e
      invariant out + Unescape(s[i..e]) == Unescape(s[1..e])
      decreases e - i
    {
      var c := s[i];
      if c != '\\' {
        PlainStep(s, i, e, out);
        out := out + [c];
        i := i + 1;
        continue;
      }
      if i + 1 >= e {
        UnescapeStep(s[i..e]);
        break;
      }
      var n := s[i + 1];
      PairStep(s, i, e, out);
      out := out + [UnescapeChar(n)];
      i := i + 2;
    }
    assert Unescape(s[i..e]) == [];
  }

  lemma PlainStep(s: string, i: int, e: int, out: string)
    requires 0 <= i < e <= |s| && s[i] != '\\'
    ensures (out + [s[i]]) + Unescape(s[i + 1..e]) == out + Unescape(s[i..e])
  {
    UnescapeStep(s[i..e]);
    assert s[i..e][1..] == s[i + 1..e];
  }

  lemma PairStep(s: string, i: int, e: int, out: string)
    requires 0 <= i && i + 1 < e <= |s| && s[i] == '\\'
    ensures (out + [UnescapeChar(s[i + 1])]) + Unescape(s[i + 2..e]) == out + Unescape(s[i..e])
  {
    UnescapeStep(s[i..e]);
    assert s[i..e][2..] == s[i + 2..e];
  }

  /** One step of the decoder's loop, with the output split off in front. */
  lemma UnescapeStep(b: string)
    requires b != []
    ensures b[0] != '\\' ==> Unescape(b) == [b[0]] + Unescape(b[1..])
    ensures b[0] == '\\' && |b| >= 2 ==> Unescape(b) == [UnescapeChar(b[1])] + Unescape(b[2..])
    ensures b[0] == '\\' && |b| == 1 ==> Unescape(b) == []
  {
  }
}

=== FILE: options.dfy ===
/** The optional value used where the source has "maybe" results. */
module Options {
  datatype Option<+T> = None | Some(value: T)
}

=== FILE: patterns.dfy ===
/** Readings of the deny patterns `is_blocked_command` searches for with
    `std::regex_search` (ECMAScript grammar, default "C" locale), each written
    as a predicate over the already lower-cased command.

    A search succeeds when the pattern matches starting at SOME position, so
    each reading is an existential over positions. Two facts about ECMAScript
    backtracking keep the readings short, and each is noted where it is used:
    a `\s*` or `\s+` that is followed by a non-space literal can only end
    where the run of spaces ends, and a `\d*` or `\d+` followed by `\b`, by a
    letter or by a non-digit literal can only end where the run of digits ends.
    `\s` is `isspace`, `\w` is `[A-Za-z0-9_]` and `\b` is a change between a
    word and a non-word character (or the text's edge). */
module Patterns {
  import opened Text

  /** The shell separators the patterns treat as command boundaries. */
  predicate IsSeparator(c: char) {
    c == ';' || c == '&' || c == '|'
  }

  predicate IsDigit(c: char) {
    '0' <= c <= '9'
  }

  predicate IsLowerLetter(c: char) {
    'a' <= c <= 'z'
  }

  /** `\w`. */
  predicate IsWordChar(c: char) {
    IsLowerLetter(c) || IsUpper(c) || IsDigit(c) || c == '_'
  }

  /** `\b` at position `i` (between `s[i - 1]` and `s[i]`). */
  predicate WordBoundary(s: string, i: int)
    requires 0 <= i <= |s|
  {
    (i > 0 && IsWordChar(s[i - 1])) != (i < |s| && IsWordChar(s[i]))
  }

  /** The literal `w` occurs at position `i`. */
  predicate HasAt(s: string, i: int, w: string) {
    0 <= i && i + |w| <= |s| && s[i..i + |w|] == w
  }

  /** The literal `w` occurs at `i` and a `\b` follows it. */
  predicate KeywordAt(s: string, i: int, w: string) {
    HasAt(s, i, w) && WordBoundary(s, i + |w|)
  }

  /** Where a greedy `\s*` that starts at `i` stops. */
  function SkipSpaces(s: string, i: nat): (j: nat)
    requires i <= |s|
    ensures i <= j <= |s|
    ensures forall k :: i <= k < j ==> IsSpace(s[k])
    ensures j < |s| ==> !IsSpace(s[j])
    decreases |s| - i
  {
    if i == |s| || !IsSpace(s[i]) then i else SkipSpaces(s, i + 1)
  }

  /** Where a greedy `\d*` that starts at `i` stops. */
  function SkipDigits(s: string, i: nat): (j: nat)
    requires i <= |s|
    ensures i <= j <= |s|
    ensures forall k :: i <= k < j ==> IsDigit(s[k])
    ensures j < |s| ==> !IsDigit(s[j])
    decreases |s| - i
  {
    if i == |s| || !IsDigit(s[i]) then i else SkipDigits(s, i + 1)
  }

  /** `(^|[;&|])` can end at `i`: the start of the text, or just after a separator. */
  predicate CommandStart(s: string, i: int) {
    i == 0 || (0 < i <= |s| && IsSeparator(s[i - 1]))
  }

  /** `$|[;&|]` at `i`. */
  predicate SeparatorOrEnd(s: string, i: int)
    requires 0 <= i <= |s|
  {
    i == |s| || IsSeparator(s[i])
  }

  /** `w` is a (not necessarily contiguous) subsequence of `m`. */
  predicate IsSubsequence(w: string, m: string) {
    if w == [] then true
    else if m == [] then false
    else if m[0] == w[0] then IsSubsequence(w[1..], m[1..])
    else IsSubsequence(w, m[1..])
  }

  // ---------------------------------------------------------------------
  // The two rm-root patterns (server.cpp:91-94)
  // ---------------------------------------------------------------------

  /** `\brm\b` at `i`. */
  predicate RmAt(s: string, i: int) {
    HasAt(s, i, "rm") && WordBoundary(s, i) && WordBoundary(s, i + 2)
  }

  /** What `[^;&|]*-[^;&|]*r[^;&|]*f[^;&|]*\s+` (with `flags` = "-rf", or the
      "-fr" order of the second pattern) matches between `rm` and the slash:
      no separator, the flag letters in order, and a space just before the
      slash. The spaces themselves are not separators, so the `[^;&|]*` in
      front of `\s+` can take all but the last of them. */
  predicate FlagSpan(m: string, flags: string) {
    && m != []
    && (forall k :: 0 <= k < |m| ==> !IsSeparator(m[k]))
    && IsSpace(m[|m| - 1])
    && IsSubsequence(flags, m)
  }

  /** `(/\s*($|[;&|])|/\*\s*($|[;&|]))` after the slash, starting at `k`. */
  predicate RootTail(s: string, k: nat)
    requires k <= |s|
  {
    || SeparatorOrEnd(s, SkipSpaces(s, k))
    || (HasAt(s, k, "*") && SeparatorOrEnd(s, SkipSpaces(s, k + 1)))
  }

  /** The rm-root pattern with the flag letters in the order `flags`: an `rm`
      word at `i` and the root slash at `t`. */
  predicate RmRootWith(s: string, flags: string) {
    exists i, t :: 0 <= i < t < |s| && i + 2 < t && RmAt(s, i) && FlagSpan(s[i + 2..t], flags) && s[t] == '/' && RootTail(s, t + 1)
  }

  /** `kRmRootRf1`: `-` then `r` then `f`. */
  predicate RmRootRf1(s: string) {
    RmRootWith(s, "-rf")
  }

  /** `kRmRootRf2`: `-` then `f` then `r`. */
  predicate RmRootRf2(s: string) {
    RmRootWith(s, "-fr")
  }

  // ---------------------------------------------------------------------
  // Block-device names (server.cpp:109-111)
  // ---------------------------------------------------------------------

  /** `(sd[a-z]\d*|vd[a-z]\d*|nvme\d+n\d+(p\d+)?)\b` at `k`. Every digit run is
      followed by `\b`, a letter or `n`/`p`, none of which can sit between two
      digits, so each run is maximal. */
  predicate DeviceAt(s: string, k: int) {
    || (&& (HasAt(s, k, "sd") || HasAt(s, k, "vd"))
        && k + 2 < |s| && IsLowerLetter(s[k + 2])
        && WordBoundary(s, SkipDigits(s, k + 3)))
    || (&& HasAt(s, k, "nvme")
        && var d1 := SkipDigits(s, k + 4);
           && d1 > k + 4 && HasAt(s, d1, "n")
           && var d2 := SkipDigits(s, d1 + 1);
              && d2 > d1 + 1
              && (|| WordBoundary(s, d2)
                  || (HasAt(s, d2, "p") && var d3 := SkipDigits(s, d2 + 1); d3 > d2 + 1 && WordBoundary(s, d3))))
  }

  // ---------------------------------------------------------------------
  // The table rules (server.cpp:100-114)
  // ---------------------------------------------------------------------

  /** `(shutdown|reboot|halt|poweroff)\b` at `j`. */
  predicate PowerWordAt(s: string, j: int) {
    KeywordAt(s, j, "shutdown") || KeywordAt(s, j, "reboot") || KeywordAt(s, j, "halt") || KeywordAt(s, j, "poweroff")
  }

  /** `init\s+[06]\b` at `j`. */
  predicate RunlevelAt(s: string, j: int) {
    && HasAt(s, j, "init")
    && var k := SkipSpaces(s, j + 4);
       k > j + 4 && (KeywordAt(s, k, "0") || KeywordAt(s, k, "6"))
  }

  /** `systemctl\s+(reboot|poweroff|halt)\b` at `j`. */
  predicate SystemctlPowerAt(s: string, j: int) {
    && HasAt(s, j, "systemctl")
    && var k := SkipSpaces(s, j + 9);
       k > j + 9 && (KeywordAt(s, k, "reboot") || KeywordAt(s, k, "poweroff") || KeywordAt(s, k, "halt"))
  }

  /** The characters of `[a-z0-9_+-]`. */
  predicate IsFsTypeChar(c: char) {
    IsLowerLetter(c) || IsDigit(c) || c == '_' || c == '+' || c == '-'
  }

  /** `mkfs(\.[a-z0-9_+-]+)?\b` at `j`: plain `mkfs` followed by `\b`, or
      `mkfs.` with a non-empty type name that some `\b` ends. */
  predicate MkfsAt(s: string, j: int) {
    && HasAt(s, j, "mkfs")
    && (|| WordBoundary(s, j + 4)
        || (&& HasAt(s, j + 4, ".")
            && exists e :: j + 5 < e <= |s| && WordBoundary(s, e) && (forall k :: j + 5 <= k < e ==> IsFsTypeChar(s[k]))))
  }

  /** `(mkfs(\.[a-z0-9_+-]+)?|fdisk|sfdisk|parted|wipefs)\b` at `j`. */
  predicate FormatToolAt(s: string, j: int) {
    || MkfsAt(s, j)
    || KeywordAt(s, j, "fdisk") || KeywordAt(s, j, "sfdisk")
    || KeywordAt(s, j, "parted") || KeywordAt(s, j, "wipefs")
  }

  // `:\s*>\s*` then `/dev/<device>\b`, at `j`.
  predicate NullRedirectAt(s: string, j: int) {
    && HasAt(s, j, ":")
    && var k1 := SkipSpaces(s, j + 1);
       && HasAt(s, k1, ">")
       && var k2 := SkipSpaces(s, k1 + 1);
          HasAt(s, k2, "/dev/") && DeviceAt(s, k2 + 5)
  }

  /** `kill\s+-9\s+-?1\b` at `j`. An optional `-` in front of `1` is either
      the `-1` literal or absent, and `\b` must follow the `1`. */
  predicate KillAllAt(s: string, j: int) {
    && HasAt(s, j, "kill")
    && var k1 := SkipSpaces(s, j + 4);
       && k1 > j + 4 && HasAt(s, k1, "-9")
       && var k2 := SkipSpaces(s, k1 + 2);
          k2 > k1 + 2 && (KeywordAt(s, k2, "1") || KeywordAt(s, k2, "-1"))
  }

  /** The head of one table rule. */
  datatype Head = PowerWord | Runlevel | SystemctlPower | FormatTool | DiskCopy | NullRedirect | KillAllHead

  predicate HeadAt(h: Head, s: string, j: int) {
    match h
    case PowerWord => PowerWordAt(s, j)
    case Runlevel => RunlevelAt(s, j)
    case SystemctlPower => SystemctlPowerAt(s, j)
    case FormatTool => FormatToolAt(s, j)
    case DiskCopy => KeywordAt(s, j, "dd")
    case NullRedirect => NullRedirectAt(s, j)
    case KillAllHead => KillAllAt(s, j)
  }

  /** `(^|[;&|])\s*<head>`: the head appears at the start of a command, that
      is after the text's start or a separator and any spaces. Every head
      starts with a non-space literal, so `\s*` takes the whole run. */
  predicate AtCommandBoundary(h: Head, s: string) {
    exists i :: 0 <= i <= |s| && CommandStart(s, i) && HeadAt(h, s, SkipSpaces(s, i))
  }

  /** `\b(of|if)=/dev/<device>\b` anywhere in the text. */
  predicate BlockDeviceArgument(s: string) {
    exists j :: 0 <= j <= |s| && WordBoundary(s, j) && (HasAt(s, j, "of=/dev/") || HasAt(s, j, "if=/dev/")) && DeviceAt(s, j + 8)
  }
}

=== FILE: runner.dfy ===
/** `run_command`: the checks made before anything is spawned, the poll loop
    that collects the child's combined output until it exits or the deadline
    passes, the final drain of the pipe, and the exit-code rule.

    The operating system is not modelled. What it would report is passed in as
    a `Host` value: whether `pipe` and `fork` succeed, and then the sequence of
    observations the parent makes on each turn of its loop (the bytes one
    `read` returned, whether `waitpid(WNOHANG)` reaped the child, whether the
    steady clock was past the deadline) followed by the reads of the drain. */
module Runner {
  import opened Options
  import opened Text
  import opened Classifier

  /** The longest trimmed command that is accepted. */
  const MaxCommandLength: nat := 4096

  const EmptyCommandError: string := "empty command"
  const TooLongError: string := "command too long (max 4096 chars)"
  const BlockedPrefix: string := "blocked command: "
  const PipeFailedError: string := "pipe failed"
  const ForkFailedError: string := "fork failed"

  /** The exit code reported for a result that did not come from a child exiting normally. */
  const NotExecutedCode: int := -1
  /** The exit code reported for a child that was reaped without exiting
      normally, such as one killed by a signal. It shares its value with
      `NotExecutedCode`. */
  const AbnormalEndCode: int := -1
  /** The exit code reported when the deadline passed and the child was killed. */
  const TimeoutCode: int := -2

  /** `ExecResult`. */
  datatype ExecResult = ExecResult(ok: bool, exitCode: int, timedOut: bool, output: string, error: string)

  /** Every early return of `run_command` has this shape. */
  function Failure(error: string): ExecResult {
    ExecResult(false, NotExecutedCode, false, [], error)
  }

  /** `WEXITSTATUS` of a normal exit is one byte. */
  type ExitStatus = x: int | 0 <= x < 256

  /** What `waitpid` reports about a reaped child: a normal exit with its
      status (`WIFEXITED`), or any other end, such as a signal. */
  datatype WaitStatus = Exited(code: ExitStatus) | Abnormal

  /** One turn of the poll loop, as the parent observes it: the bytes its
      non-blocking `read` returned (empty when there were none), what
      `waitpid(pid, &status, WNOHANG)` returned, and whether the steady clock
      was past the deadline when it was checked. */
  datatype Poll = Poll(chunk: string, reaped: Option<WaitStatus>, pastDeadline: bool)

  /** How the poll loop ended: the child was reaped, or it was killed at the
      deadline. Both carry the output gathered so far. */
  datatype LoopEnd = Reaped(output: string, status: WaitStatus) | Killed(output: string)

  /** A turn on which the loop leaves. */
  predicate Stops(p: Poll) {
    p.reaped.Some? || p.pastDeadline
  }

  /** The chunks of `polls`, concatenated in order. */
  function Chunks(polls: seq<Poll>): string {
    if polls == [] then [] else polls[0].chunk + Chunks(polls[1..])
  }

  /** The poll loop, run over the observations `polls` with `acc` gathered so
      far. It is `None` when the observations run out while the child is still
      running and the deadline has not yet passed. */
  function PollLoop(polls: seq<Poll>, acc: string): (e: Option<LoopEnd>)
    ensures e.Some? ==> StartsWith(e.value.output, acc)
  {
    if polls == [] then None
    else
      var output := acc + polls[0].chunk;
      if polls[0].reaped.Some? then Some(Reaped(output, polls[0].reaped.value))
      else if polls[0].pastDeadline then Some(Killed(output))
      else
        var e := PollLoop(polls[1..], output);
        assert e.Some? ==> e.value.output[..|acc|] == e.value.output[..|output|][..|acc|];
        e
  }

  /** Turn `k` is the first on which the loop leaves. */
  ghost predicate FirstStop(polls: seq<Poll>, k: int) {
    0 <= k < |polls| && Stops(polls[k]) && forall j :: 0 <= j < k ==> !Stops(polls[j])
  }

  /** The loop leaves on the first turn that reports the child reaped or the
      deadline passed. Its output is every chunk read up to and including that
      turn, in order, with nothing lost or repeated; it is `Killed` exactly
      when that turn did not reap the child, since the exit check comes first. */
  lemma {:induction false} PollLoopStopsAtFirst(polls: seq<Poll>, acc: string, k: int)
    requires FirstStop(polls, k)
    ensures PollLoop(polls, acc) == Some(
      if polls[k].reaped.Some? then Reaped(acc + Chunks(polls[..k + 1]), polls[k].reaped.value)
      else Killed(acc + Chunks(polls[..k + 1])))
  {
    assert polls[..k + 1][0] == polls[0];
    assert polls[..k + 1][1..] == polls[1..][..k];
    if k == 0 {
      assert polls[..1][1..] == [];
      assert Chunks(polls[..1]) == polls[0].chunk + Chunks([]);
      assert polls[0].chunk + [] == polls[0].chunk;
    } else {
      assert FirstStop(polls[1..], k - 1);
      PollLoopStopsAtFirst(polls[1..], acc + polls[0].chunk, k - 1);
      assert polls[1..][k - 1] == polls[k];
      assert Chunks(polls[..k + 1]) == polls[0].chunk + Chunks(polls[1..][..k]);
      assert acc + Chunks(polls[..k + 1]) == (acc + polls[0].chunk) + Chunks(polls[1..][..k]);
    }
  }

  /** The loop is still running at the end of the observations exactly when
      no observed turn reaped the child or saw the deadline pass. */
  lemma {:induction false} PollLoopRunningIff(polls: seq<Poll>, acc: string)
    ensures PollLoop(polls, acc).None? <==> forall j :: 0 <= j < |polls| ==> !Stops(polls[j])
  {
    if polls != [] {
      PollLoopRunningIff(polls[1..], acc + polls[0].chunk);
      assert forall j :: 1 <= j < |polls| ==> polls[j] == polls[1..][j - 1];
    }
  }

  /** Observations made after the loop has left never matter. */
  lemma {:induction false} PollLoopIgnoresLaterPolls(polls: seq<Poll>, later: seq<Poll>, acc: string)
    requires PollLoop(polls, acc).Some?
    ensures PollLoop(polls + later, acc) == PollLoop(polls, acc)
  {
    assert (polls + later)[0] == polls[0];
    if !Stops(polls[0]) {
      assert (polls + later)[1..] == polls[1..] + later;
      PollLoopIgnoresLaterPolls(polls[1..], later, acc + polls[0].chunk);
    }
  }

  /** The observations reach a turn on which the loop leaves. The steady clock
      is monotonic, so a real run always gets there. */
  predicate LoopEnds(polls: seq<Poll>) {
    exists k :: 0 <= k < |polls| && Stops(polls[k])
  }

  /** Strings concatenated in order. */
  function Concat(xs: seq<string>): string {
    if xs == [] then [] else xs[0] + Concat(xs[1..])
  }

  /** The drain after the loop: append what each `read` returns until one
      returns nothing. */
  function Drain(results: seq<string>): (out: string)
    ensures StartsWith(Concat(results), out)
  {
    if results == [] || results[0] == [] then []
    else
      var rest := Drain(results[1..]);
      assert (results[0] + Concat(results[1..]))[..|results[0] + rest|] == results[0] + Concat(results[1..])[..|rest|];
      results[0] + rest
  }

  /** Read `k` is the first that returns nothing. */
  predicate FirstEmpty(results: seq<string>, k: int) {
    0 <= k < |results| && results[k] == [] && forall j :: 0 <= j < k ==> results[j] != []
  }

  /** The reads reach one that returns nothing, which is the only way the
      drain loop leaves; it has no deadline. */
  predicate DrainEnds(results: seq<string>) {
    exists k :: 0 <= k < |results| && results[k] == []
  }

  /** The drain keeps every read before the first empty one, in order, and
      nothing after it. */
  lemma {:induction false} DrainStopsAtFirstEmpty(results: seq<string>, k: int)
    requires FirstEmpty(results, k)
    ensures Drain(results) == Concat(results[..k])
  {
    if k > 0 {
      assert results[..k][1..] == results[1..][..k - 1];
      assert FirstEmpty(results[1..], k - 1);
      DrainStopsAtFirstEmpty(results[1..], k - 1);
    }
  }

  /** `timed_out ? -2 : (WIFEXITED(status) ? WEXITSTATUS(status) : -1)`. */
  function ExitCode(end: LoopEnd): (code: int)
    ensures code == TimeoutCode <==> end.Killed?
    ensures end.Reaped? && end.status.Exited? ==> code == end.status.code
    ensures end.Reaped? && end.status.Abnormal? ==> code == AbnormalEndCode
    ensures -2 <= code < 256
  {
    match end
    case Killed(_) => TimeoutCode
    case Reaped(_, Exited(c)) => c
    case Reaped(_, Abnormal) => AbnormalEndCode
  }

  /** What the host does once the command has been approved. */
  datatype Host =
    | PipeFails
    | ForkFails
    | Child(polls: seq<Poll>, results: seq<string>)

  /** The environment keeps its side of the bargain: once a child runs, the
      loop's observations reach a turn on which the loop leaves, and the
      drain's reads reach one that returns nothing. */
  predicate HostEnds(host: Host) {
    host.Child? ==> LoopEnds(host.polls) && DrainEnds(host.results)
  }

  /** The verdict of the pre-spawn checks on the trimmed command. */
  function Validate(trimmed: string): (v: Option<ExecResult>)
    ensures v.None? <==> trimmed != [] && |trimmed| <= MaxCommandLength && Classify(trimmed) == Allowed
    ensures v.Some? ==> !v.value.ok && v.value.exitCode == NotExecutedCode && !v.value.timedOut && v.value.output == [] && v.value.error != []
  {
    if trimmed == [] then Some(Failure(EmptyCommandError))
    else if |trimmed| > MaxCommandLength then Some(Failure(TooLongError))
    else match Classify(trimmed)
      case Blocked(reason) => Some(Failure(BlockedPrefix + reason))
      case Allowed => None
  }

  /** `run_command`. */
  function RunCommand(command: string, host: Host): (r: ExecResult)
    requires HostEnds(host)
    ensures !r.ok ==> r.exitCode == NotExecutedCode && !r.timedOut && r.output == []
    ensures r.timedOut <==> r.exitCode == TimeoutCode
    ensures r.ok <==> r.error == []
    ensures r.ok <==> Validate(Trim(command)).None? && host.Child?
  {
    var trimmed := Trim(command);
    match Validate(trimmed)
    case Some(failure) => failure
    case None =>
      match host
      case PipeFails => Failure(PipeFailedError)
      case ForkFails => Failure(ForkFailedError)
      case Child(polls, results) =>
        assert PollLoop(polls, []).Some? by { PollLoopRunningIff(polls, []); }
        var end := PollLoop(polls, []).value;
        ExecResult(true, ExitCode(end), end.Killed?, end.output + Drain(results), [])
  }

  /** The checks run in a fixed order on the trimmed command, each with its
      own error, and all of them before `pipe` or `fork` is attempted: the
      host is never consulted for a command that fails one. */
  lemma ValidationLadder(command: string, host: Host)
    requires HostEnds(host)
    ensures var t := Trim(command); var r := RunCommand(command, host);
      && (t == [] ==> r == Failure(EmptyCommandError))
      && (t != [] && |t| > MaxCommandLength ==> r == Failure(TooLongError))
      && (t != [] && |t| <= MaxCommandLength && Classify(t).Blocked? ==>
            r == Failure(BlockedPrefix + Classify(t).reason))
      && (Validate(t).Some? ==> forall other: Host :: HostEnds(other) ==> RunCommand(command, other) == r)
  {
  }

  /** Spaces around the command change nothing: the checks, the classifier and
      the spawned shell all see the trimmed text. */
  lemma RunCommandSeesTrimmed(command: string, host: Host)
    requires HostEnds(host)
    ensures RunCommand(command, host) == RunCommand(Trim(command), host)
  {
    TrimIdempotent(command);
  }

  /** A command that passes the checks and is spawned reports success. Its
      output is every chunk read by the loop up to the turn it left on,
      followed by every read of the drain before the first empty one; it timed out exactly when that turn did not reap
      the child, and then its exit code is the timeout code; otherwise the
      code is the child's exit status, or -1 when it did not exit normally. */
  lemma RunCommandCompletes(command: string, polls: seq<Poll>, results: seq<string>, k: int, e: int)
    requires Validate(Trim(command)).None?
    requires FirstStop(polls, k)
    requires FirstEmpty(results, e)
    ensures var r := RunCommand(command, Child(polls, results));
      && r.ok
      && r.output == Chunks(polls[..k + 1]) + Concat(results[..e])
      && (r.timedOut <==> polls[k].reaped.None?)
      && (r.timedOut ==> r.exitCode == TimeoutCode)
      && (polls[k].reaped == Some(Abnormal) ==> r.exitCode == AbnormalEndCode)
      && (forall c :: polls[k].reaped == Some(Exited(c)) ==> r.exitCode == c)
  {
    PollLoopStopsAtFirst(polls, [], k);
    DrainStopsAtFirstEmpty(results, e);
    assert [] + Chunks(polls[..k + 1]) == Chunks(polls[..k + 1]);
  }
}

=== FILE: scenarios.dfy ===
/** Concrete requests worked through the model: `rm -rf /`, a root deletion
    refused with 403, a case-variant of it, the
    `--no-preserve-root` flag winning over a root deletion, a power word
    inside an argument that is let through, and a disk copy that two table
    rules match. */
module Scenarios {
  import opened Text
  import opened Patterns
  import opened Classifier
  import opened Runner
  import opened Http

  /** `rm -rf /` is a root deletion. */
  lemma RmRfRootIsRootDeletion(s: string)
    requires s == "rm -rf /"
    ensures Classify(s) == Blocked(RootDeletionReason)
  {
    LowerCase(s);
    RmRfRootMatches(s);
    RootDeletionBeatsTable(s);
  }

  lemma RmRfRootMatches(s: string)
    requires s == "rm -rf /"
    ensures !Contains(s, NoPreserveRootFlag) && RmRootRf1(s)
  {
    assert !Contains(s, NoPreserveRootFlag);
    assert s[0..2] == "rm" && s[2..7] == " -rf " && s[7] == '/';
    assert IsSubsequence("-rf", " -rf ");
    assert RmAt(s, 0) && FlagSpan(s[2..7], "-rf") && RootTail(s, 8);
  }

  /** Upper-case letters do not get it past the classifier. */
  lemma UpperCaseRmRfRootIsRootDeletion(u: string)
    requires u == "RM -RF /"
    ensures Classify(u) == Blocked(RootDeletionReason)
  {
    var s := "rm -rf /";
    assert forall i :: 0 <= i < |u| ==> LowerChar(u[i]) == s[i];
    assert ToLower(u) == s;
    ClassifyIgnoresCase(u);
    RmRfRootIsRootDeletion(s);
  }

  /** The request `rm -rf /` is refused before
      anything is spawned, whatever the host would have done, with the error
      "blocked command: " followed by "root filesystem deletion", and answered
      with 403. */
  lemma RmRfRootForbidden(s: string, host: Host)
    requires s == "rm -rf /"
    requires HostEnds(host)
    ensures RunCommand(s, host) == Failure(BlockedPrefix + RootDeletionReason)
    ensures ResponseStatus(RunCommand(s, host)) == 403
  {
    assert NoEdgeSpace(s);
    TrimOfTrimmed(s);
    RmRfRootIsRootDeletion(s);
    ValidationLadder(s, host);
    ForbiddenIffBlocked(s, host);
  }

  lemma NoPreserveRootFlagPresent(s: string)
    requires s == "rm -rf --no-preserve-root /"
    ensures Contains(s, NoPreserveRootFlag)
  {
    assert s[7..][..18] == NoPreserveRootFlag;
    assert StartsWith(s[7..], NoPreserveRootFlag);
  }

  /** The same command also matches the first rm-root pattern: the flag
      span between `rm` and the slash holds `-`, `r`, `f` in order. */
  lemma NoPreserveRootCommandDeletesRoot(s: string)
    requires s == "rm -rf --no-preserve-root /"
    ensures RmRootRf1(s)
  {
    assert s[2] == ' ' && s[3] == '-' && s[4] == 'r' && s[5] == 'f' && s[25] == ' ';
    var m := s[2..26];
    assert |m| == 24 && m[0] == ' ' && m[1] == '-' && m[2] == 'r' && m[3] == 'f' && m[23] == ' ';
    assert forall k :: 0 <= k < |m| ==> m[k] == s[k + 2];
    assert IsSubsequence("f", m[3..]) by {
      assert m[3..][0] == 'f';
    }
    assert IsSubsequence("rf", m[2..]) by {
      assert m[2..][0] == 'r' && m[2..][1..] == m[3..];
    }
    assert IsSubsequence("-rf", m[1..]) by {
      assert m[1..][0] == '-' && m[1..][1..] == m[2..];
    }
    assert IsSubsequence("-rf", m) by {
      assert m[0] == ' ';
    }
    assert RmAt(s, 0) && FlagSpan(m, "-rf") && s[26] == '/' && RootTail(s, 27);
  }

  /** `--no-preserve-root` wins even where a root deletion also matches. */
  lemma NoPreserveRootBeatsRootDeletion(s: string)
    requires s == "rm -rf --no-preserve-root /"
    ensures RmRootRf1(ToLower(s))
    ensures Classify(s) == Blocked(DangerousFlagReason)
  {
    NoPreserveRootCommandDeletesRoot(s);
    NoPreserveRootFlagPresent(s);
    LowerCase(s);
    NoPreserveRootAlwaysBlocked(s);
  }

  /** The commands above hold no upper-case letter, so lower-casing keeps them.
      The branches are identical; splitting on the literal keeps each proof
      obligation to one short string, which the solver needs. */
  lemma LowerCase(s: string)
    requires s == "rm -rf /" || s == "rm -rf --no-preserve-root /" || s == "cat shutdown.log" || s == "dd if=/dev/sda"
    ensures ToLower(s) == s
  {
    if s == "rm -rf /" {
      ToLowerOfLower(s);
    } else if s == "rm -rf --no-preserve-root /" {
      ToLowerOfLower(s);
    } else if s == "cat shutdown.log" {
      ToLowerOfLower(s);
    } else {
      ToLowerOfLower(s);
    }
  }

  // ---------------------------------------------------------------------
  // Helpers for showing that a pattern does not occur
  // ---------------------------------------------------------------------

  /** A literal cannot occur where one of its characters is missing from the text. */
  lemma MissingCharBlocksLiteral(s: string, w: string, k: int, c: char)
    requires 0 <= k < |w| && w[k] == c
    requires forall j :: 0 <= j < |s| ==> s[j] != c
    ensures forall i :: !HasAt(s, i, w)
    ensures !Contains(s, w)
  {
  }

  /** Without an `r` there is no `rm` word, so neither rm-root pattern matches. */
  lemma NoRmWithoutR(s: string)
    requires forall j :: 0 <= j < |s| ==> s[j] != 'r'
    ensures !RmRootRf1(s) && !RmRootRf2(s)
  {
    MissingCharBlocksLiteral(s, "rm", 0, 'r');
  }

  /** Without a separator, a command can only start at the beginning of the text. */
  lemma OnlyStartWithoutSeparators(h: Head, s: string)
    requires forall j :: 0 <= j < |s| ==> !IsSeparator(s[j])
    ensures AtCommandBoundary(h, s) <==> HeadAt(h, s, SkipSpaces(s, 0))
  {
    if AtCommandBoundary(h, s) {
      var i :| 0 <= i <= |s| && CommandStart(s, i) && HeadAt(h, s, SkipSpaces(s, i));
      assert i == 0;
    }
    assert CommandStart(s, 0);
  }

  /** The letters a command head can start with. */
  function Initials(h: Head): string {
    match h
    case PowerWord => "srhp"
    case Runlevel => "i"
    case SystemctlPower => "s"
    case FormatTool => "mfspw"
    case DiskCopy => "d"
    case NullRedirect => ":"
    case KillAllHead => "k"
  }

  lemma LiteralFirstChar(s: string, j: int, w: string)
    requires w != [] && HasAt(s, j, w)
    ensures 0 <= j < |s| && s[j] == w[0]
  {
    assert s[j..j + |w|][0] == s[j];
  }

  /** Every command head starts with one of a few letters. */
  lemma HeadInitial(h: Head, s: string, j: int)
    requires HeadAt(h, s, j)
    ensures 0 <= j < |s| && s[j] in Initials(h)
  {
    match h
    case PowerWord =>
      if HasAt(s, j, "shutdown") { LiteralFirstChar(s, j, "shutdown"); }
      else if HasAt(s, j, "reboot") { LiteralFirstChar(s, j, "reboot"); }
      else if HasAt(s, j, "halt") { LiteralFirstChar(s, j, "halt"); }
      else { LiteralFirstChar(s, j, "poweroff"); }
    case Runlevel => LiteralFirstChar(s, j, "init");
    case SystemctlPower => LiteralFirstChar(s, j, "systemctl");
    case FormatTool =>
      if HasAt(s, j, "mkfs") { LiteralFirstChar(s, j, "mkfs"); }
      else if HasAt(s, j, "fdisk") { LiteralFirstChar(s, j, "fdisk"); }
      else if HasAt(s, j, "sfdisk") { LiteralFirstChar(s, j, "sfdisk"); }
      else if HasAt(s, j, "parted") { LiteralFirstChar(s, j, "parted"); }
      else { LiteralFirstChar(s, j, "wipefs"); }
    case DiskCopy => LiteralFirstChar(s, j, "dd");
    case NullRedirect => LiteralFirstChar(s, j, ":");
    case KillAllHead => LiteralFirstChar(s, j, "kill");
  }

  /** A text without separators whose first word does not start like a
      command head matches no head rule. */
  lemma NoHeadRuleMatches(s: string)
    requires forall j :: 0 <= j < |s| ==> !IsSeparator(s[j])
    requires SkipSpaces(s, 0) < |s| && forall h: Head :: s[SkipSpaces(s, 0)] !in Initials(h)
    ensures forall h: Head :: !AtCommandBoundary(h, s)
  {
    forall h: Head ensures !AtCommandBoundary(h, s) {
      OnlyStartWithoutSeparators(h, s);
      if HeadAt(h, s, SkipSpaces(s, 0)) {
        HeadInitial(h, s, SkipSpaces(s, 0));
      }
    }
  }

  /** With no `=` there is no `of=` or `if=` argument. */
  lemma NoDeviceArgumentWithoutEquals(s: string)
    requires forall j :: 0 <= j < |s| ==> s[j] != '='
    ensures !BlockDeviceArgument(s)
  {
    MissingCharBlocksLiteral(s, "of=/dev/", 2, '=');
    MissingCharBlocksLiteral(s, "if=/dev/", 2, '=');
  }

  /** A command in which no rule at all matches is allowed. */
  lemma AllowedWhenNothingMatches(s: string)
    requires ToLower(s) == s
    requires !Contains(s, NoPreserveRootFlag) && !RmRootRf1(s) && !RmRootRf2(s)
    requires forall h: Head :: !AtCommandBoundary(h, s)
    requires !BlockDeviceArgument(s)
    ensures Classify(s) == Allowed
  {
    forall k | 0 <= k < |Table| ensures !RuleMatches(Table[k], s) {
      match Table[k]
      case PowerControl => assert !AtCommandBoundary(PowerWord, s);
      case RunlevelSwitch => assert !AtCommandBoundary(Runlevel, s);
      case SystemPowerControl => assert !AtCommandBoundary(SystemctlPower, s);
      case DiskFormatting => assert !AtCommandBoundary(FormatTool, s);
      case RawDiskCopy => assert !AtCommandBoundary(DiskCopy, s);
      case BlockDeviceAccess =>
      case BlockDeviceOverwrite => assert !AtCommandBoundary(NullRedirect, s);
      case KillAll => assert !AtCommandBoundary(KillAllHead, s);
    }
    AllowedIffNoRuleMatches(s);
  }

  /** A file name that contains a power word is not a power command: the word
      has to start a command. Nothing else in the table matches either. */
  lemma PowerWordInsideArgumentAllowed(s: string)
    requires s == "cat shutdown.log"
    ensures Classify(s) == Allowed
  {
    LowerCase(s);
    NoFlagNoRm(s);
    NoHeadNoDevice(s);
    AllowedWhenNothingMatches(s);
  }

  lemma NoFlagNoRm(s: string)
    requires s == "cat shutdown.log"
    ensures !Contains(s, NoPreserveRootFlag) && !RmRootRf1(s) && !RmRootRf2(s)
  {
    NoRmWithoutR(s);
  }

  lemma NoHeadNoDevice(s: string)
    requires s == "cat shutdown.log"
    ensures forall h: Head :: !AtCommandBoundary(h, s)
    ensures !BlockDeviceArgument(s)
  {
    assert SkipSpaces(s, 0) == 0;
    NoHeadRuleMatches(s);
    NoDeviceArgumentWithoutEquals(s);
  }

  /** `dd if=/dev/sda` matches both the raw-disk-copy rule and the
      block-device-argument rule after it; the earlier table entry decides. */
  lemma TableOrderPicksDiskCopy(s: string)
    requires s == "dd if=/dev/sda"
    ensures RuleMatches(RawDiskCopy, s) && RuleMatches(BlockDeviceAccess, s)
    ensures Classify(s) == Blocked(Reason(RawDiskCopy))
  {
    DiskCopyMatches(s);
    DiskCopyIsFirstMatch(s);
    LowerCase(s);
    TableOrderDecides(s, 4);
  }

  lemma DiskCopyIsFirstMatch(s: string)
    requires s == "dd if=/dev/sda"
    ensures !Contains(s, NoPreserveRootFlag)
    ensures !RmRootRf1(s) && !RmRootRf2(s)
    ensures FirstMatchAt(Table, s, 4)
  {
    DiskCopyNoFlagNoRm(s);
    DiskCopyMatches(s);
    DiskCopyEarlierRulesMiss(s);
  }

  lemma DiskCopyNoFlagNoRm(s: string)
    requires s == "dd if=/dev/sda"
    ensures !Contains(s, NoPreserveRootFlag) && !RmRootRf1(s) && !RmRootRf2(s)
  {
    MissingCharBlocksLiteral(s, NoPreserveRootFlag, 0, '-');
    NoRmWithoutR(s);
  }

  lemma DiskCopyMatches(s: string)
    requires s == "dd if=/dev/sda"
    ensures RuleMatches(RawDiskCopy, s) && RuleMatches(BlockDeviceAccess, s)
  {
    assert SkipSpaces(s, 0) == 0 && CommandStart(s, 0);
    assert KeywordAt(s, 0, "dd");
    assert HasAt(s, 3, "if=/dev/") && WordBoundary(s, 3);
    assert SkipDigits(s, 14) == 14;
    assert DeviceAt(s, 11);
  }

  lemma DiskCopyEarlierRulesMiss(s: string)
    requires s == "dd if=/dev/sda"
    ensures forall j :: 0 <= j < 4 ==> !RuleMatches(Table[j], s)
  {
    assert SkipSpaces(s, 0) == 0;
    forall h: Head | h in {PowerWord, Runlevel, SystemctlPower, FormatTool} ensures !AtCommandBoundary(h, s) {
      OnlyStartWithoutSeparators(h, s);
      if HeadAt(h, s, 0) {
        HeadInitial(h, s, 0);
      }
    }
  }
}

=== FILE: text.dfy ===
/** Character classes and the copy-returning string helpers of the gateway
    (`trim_copy`, `to_lower_copy`).

    A `char` stands for one byte of a C++ `std::string`. The classes are those
    of the "C" locale, the one the server runs in: only ASCII characters are
    spaces, letters or digits, and nothing outside 'A'..'Z' is ever re-cased. */
module Text {

  /** `std::isspace` in the "C" locale: ' ', '\t', '\n', '\v', '\f', '\r'. */
  predicate IsSpace(c: char) {
    c == ' ' || '\t' <= c <= '\r'
  }

  predicate IsUpper(c: char) {
    'A' <= c <= 'Z'
  }

  predicate AllSpace(s: string) {
    forall i :: 0 <= i < |s| ==> IsSpace(s[i])
  }

  /** Neither the first nor the last character is a space. */
  predicate NoEdgeSpace(s: string) {
    s != [] ==> !IsSpace(s[0]) && !IsSpace(s[|s| - 1])
  }

  predicate StartsWith(s: string, prefix: string) {
    |prefix| <= |s| && s[..|prefix|] == prefix
  }

  /** `s.find(w) != npos`: `w` occurs somewhere in `s`. */
  predicate Contains(s: string, w: string) {
    exists i :: 0 <= i <= |s| - |w| && StartsWith(s[i..], w)
  }

  // ---------------------------------------------------------------------
  // Lower-casing
  // ---------------------------------------------------------------------

  /** `std::tolower` in the "C" locale. */
  function LowerChar(c: char): (d: char)
    ensures !IsUpper(d)
    ensures !IsUpper(c) ==> d == c
    ensures IsUpper(c) ==> 'a' <= d <= 'z' && d as int - c as int == 'a' as int - 'A' as int
  {
    if IsUpper(c) then (c as int + ('a' as int - 'A' as int)) as char else c
  }

  /** `to_lower_copy`: every position goes through `tolower`, nothing moves. */
  function ToLower(s: string): (r: string)
    ensures |r| == |s|
    ensures forall i :: 0 <= i < |s| ==> r[i] == LowerChar(s[i])
  {
    if s == [] then [] else [LowerChar(s[0])] + ToLower(s[1..])
  }

  lemma ToLowerHasNoUpper(s: string)
    ensures forall i :: 0 <= i < |s| ==> !IsUpper(ToLower(s)[i])
  {
  }

  lemma ToLowerIdempotent(s: string)
    ensures ToLower(ToLower(s)) == ToLower(s)
  {
  }

  /** A string with no upper-case letter is its own lower-case form. */
  lemma ToLowerOfLower(s: string)
    requires forall i :: 0 <= i < |s| ==> !IsUpper(s[i])
    ensures ToLower(s) == s
  {
  }

  lemma ToLowerAppend(a: string, b: string)
    ensures ToLower(a + b) == ToLower(a) + ToLower(b)
  {
    assert forall i :: 0 <= i < |a + b| ==> ToLower(a + b)[i] == (ToLower(a) + ToLower(b))[i];
  }

  /** Lower-casing commutes with taking a prefix. */
  lemma ToLowerPrefix(s: string, n: nat)
    requires n <= |s|
    ensures ToLower(s[..n]) == ToLower(s)[..n]
  {
  }

  /** Lower-casing only ever changes upper-case letters, so it keeps which
      positions are spaces. */
  lemma ToLowerKeepsSpaces(s: string)
    ensures forall i :: 0 <= i < |s| ==> (IsSpace(ToLower(s)[i]) <==> IsSpace(s[i]))
  {
  }

  // ---------------------------------------------------------------------
  // Trimming
  // ---------------------------------------------------------------------

  /** Number of spaces at the front of `s`. */
  function LeadingSpaces(s: string): (n: nat)
    ensures n <= |s|
    ensures forall i :: 0 <= i < n ==> IsSpace(s[i])
    ensures n < |s| ==> !IsSpace(s[n])
  {
    if s == [] || !IsSpace(s[0]) then 0
    else 1 + LeadingSpaces(s[1..])
  }

  /** Where the content of `s` ends when it starts at `start`: the smallest
      `end >= start` with only spaces after it. */
  function ContentEnd(s: string, start: nat): (end: nat)
    requires start <= |s|
    ensures start <= end <= |s|
    ensures forall i :: end <= i < |s| ==> IsSpace(s[i])
    ensures end > start ==> !IsSpace(s[end - 1])
    decreases |s|
  {
    if |s| == start || !IsSpace(s[|s| - 1]) then |s|
    else ContentEnd(s[..|s| - 1], start)
  }

  /** `s[a..b]` is what trimming keeps: only spaces lie outside it and, when it
      is not empty, it starts and ends with a non-space. */
  predicate TrimBounds(s: string, a: int, b: int) {
    && 0 <= a <= b <= |s|
    && (forall i :: 0 <= i < a ==> IsSpace(s[i]))
    && (forall i :: b <= i < |s| ==> IsSpace(s[i]))
    && (a < b ==> !IsSpace(s[a]) && !IsSpace(s[b - 1]))
  }

  /** `r` is `s` with its leading and trailing spaces cut off. */
  ghost predicate IsTrimOf(r: string, s: string) {
    exists a, b :: TrimBounds(s, a, b) && r == s[a..b]
  }

  /** `trim_copy`. */
  function Trim(s: string): (r: string)
    ensures |r| <= |s|
    ensures NoEdgeSpace(r)
    ensures r == [] <==> AllSpace(s)
    ensures IsTrimOf(r, s)
  {
    var a := LeadingSpaces(s);
    var b := ContentEnd(s, a);
    assert TrimBounds(s, a, b);
    s[a..b]
  }

  /** Two bounds that both keep something keep the same thing. */
  lemma TrimBoundsUnique(s: string, a: int, b: int, a': int, b': int)
    requires TrimBounds(s, a, b) && TrimBounds(s, a', b') && a < b
    ensures a == a' && b == b'
  {
  }

  /** The trim of a string is the only string that meets `IsTrimOf`: the
      characterisation pins down the result. */
  lemma TrimUnique(r: string, s: string)
    requires IsTrimOf(r, s)
    ensures r == Trim(s)
  {
    var a, b :| TrimBounds(s, a, b) && r == s[a..b];
    var t := Trim(s);
    var a', b' :| TrimBounds(s, a', b') && t == s[a'..b'];
    if a < b {
      TrimBoundsUnique(s, a, b, a', b');
    } else if a' < b' {
      TrimBoundsUnique(s, a', b', a, b);
    }
  }

  lemma TrimIdempotent(s: string)
    ensures Trim(Trim(s)) == Trim(s)
  {
    var t := Trim(s);
    assert TrimBounds(t, 0, |t|);
    assert t[0..|t|] == t;
    TrimUnique(t, t);
  }

  /** A string without spaces at its edges is its own trim. */
  lemma TrimOfTrimmed(s: string)
    requires NoEdgeSpace(s)
    ensures Trim(s) == s
  {
    assert TrimBounds(s, 0, |s|);
    assert s[0..|s|] == s;
    TrimUnique(s, s);
  }

  /** Spaces added on either side never change the trim. */
  lemma TrimIgnoresPadding(pre: string, s: string, post: string)
    requires AllSpace(pre) && AllSpace(post)
    ensures Trim(pre + s + post) == Trim(s)
  {
    var t := Trim(s);
    var a, b :| TrimBounds(s, a, b) && t == s[a..b];
    var w := pre + s + post;
    assert forall i :: 0 <= i < |pre| ==> w[i] == pre[i];
    assert forall i :: |pre| <= i < |pre| + |s| ==> w[i] == s[i - |pre|];
    assert forall i :: |pre| + |s| <= i < |w| ==> w[i] == post[i - |pre| - |s|];
    assert TrimBounds(w, |pre| + a, |pre| + b);
    assert w[|pre| + a..|pre| + b] == t;
    TrimUnique(t, w);
  }

  /** `trim_copy` as the source writes it: advance `start` over spaces, then
      pull `end` back over spaces, never past `start`. */
  method TrimCopy(s: string) returns (r: string)
    ensures r == Trim(s)
  {
    var start := 0;
    while start < |s| && IsSpace(s[start])
      invariant 0 <= start <= |s|
      invariant forall i :: 0 <= i < start ==> IsSpace(s[i])
    {
      start := start + 1;
    }
    var end := |s|;
    while end > start && IsSpace(s[end - 1])
      invariant start <= end <= |s|
      invariant forall i :: end <= i < |s| ==> IsSpace(s[i])
    {
      end := end - 1;
    }
    r := s[start..end];
    assert TrimBounds(s, start, end);
    TrimUnique(r, s);
  }
}
